=== FILE: README.md ===
# Curriculum Designer session state, in Dafny

This project models the per-session state machine of the Curriculum Designer
Streamlit page (`app.py`). The page keeps three session keys, and each one may
be absent:

- `logged_in`, a flag;
- `messages`, the chat log of `{role, content}` records;
- `notebook_content`, the notebook text.

The model is one immutable record, `Session.SessionState`. Each key is an
`Option`. Every button press or chat submission is one pure transition
function on that record, and `st.rerun`/`st.stop` are not modelled as control
flow. A transition includes the seeding the page does earlier in the same run.
The summary and expand actions first seed the notebook (app.py:194-195). A chat
turn also seeds the greeting first (app.py:246-251).

The generation service's answer is the parameter `Reply`: either
`Replied(text)` or `Raised(detail)`. A raise ends the run. Mutations made
before it persist, as they do in a Streamlit session, so a failed chat turn
keeps the user's prompt but stores no reply. The SHA-256 digest is the
parameter `hash: string -> string`.

Modules:

- `Optional` (option.dfy): the `Option` type used for keys that may be absent.
- `Text` (text.dfy): Python's `s[:n]`, `s[-n:]`, `s[:-1]`, `sep.join` and
  `s.split`, plus a split/join round trip.
- `Chat` (chat.dfy): stored messages and the two role mappings. The history
  mapping replays messages to the service, and the display mapping picks the
  speaker shown on screen.
- `Notebook` (notebook.dfy): the default notebook, the section-append format
  and its read-back, the chat-summary builder with its truncation, the
  expand context and both prompts.
- `Session` (session.dfy): the session record and its transitions: login,
  logout, new conversation, seeding, page load, chat turn, summarize and
  expand.

The login gate (app.py:91-115) shows the login form to a session that is not
logged in and stops the run there. So `Session.Login` is defined for sessions
that are not logged in. The chat turn, logout, new conversation, summarize and
expand are defined only for logged-in sessions, because their widgets are
drawn past the gate.

Two facts about the page:

- Login distinguishes "User not found" from "Incorrect password" and has a
  single hard-coded account. There is no credential store and no registration.
- The notebook text area's edits (`edited_notes`, app.py:197-202) are never
  written back to `notebook_content`. The notebook changes only through
  seeding, the two append actions, new conversation and logout.

## Model

| member | source | states |
|---|---|---|
| Text.Take | app.py:208 | Python's `s[:n]`: a prefix of `s` whose length is the smaller of `n` and `\|s\|` |
| Text.TakeLast | app.py:208 | Python's `s[-n:]` for `n > 0` (called with 8): the suffix of `s` whose length is the smaller of `n` and `\|s\|` |
| Text.DropLast | app.py:267 | Python's `s[:-1]`: a prefix one element shorter than a non-empty `s`, and empty for an empty `s` |
| Text.Join | app.py:208 | Python's `sep.join(parts)`: empty for no parts, the part itself for one part, and otherwise it starts with the first part and ends with the last; `Text.JoinAppend` pins every further part: one more part adds the separator and that part at the end |
| Text.JoinAppend | app.py:208 | joining one more part gives the earlier join, then the separator, then that part |
| Text.SplitJoin | app.py:208 | splitting at `c` recovers exactly the parts that were joined with `c`, when no part contains `c` |
| Chat.HistoryRole | app.py:268 | the replayed role is always `model` or `user`, and it is `model` exactly when the stored role is `assistant` or `model` |
| Chat.History | app.py:266-269 | the replayed history has one entry per message, in the same order; entry i has message i's mapped role and its content unchanged as the only part |
| Chat.HistoryAppend | app.py:266-269 | replaying two stretches of conversation gives the two replays one after the other |
| Chat.BuildHistory | app.py:266-269 | the source's loop yields the replay of every message but the last, so it is one entry shorter than a non-empty message list |
| Chat.DisplayRole | app.py:254 | as written, a message is displayed as the assistant's exactly when its stored role is `model`, and as the user's otherwise |
| Chat.IntendedDisplayRole | app.py:254 | the corrected display mapping always yields `assistant` or `user`; its partner `Chat.IntendedDisplayAgreesWithHistory` shows it agrees with the replay role in both directions |
| Chat.DisplayDisagreesWithHistory | app.py:254-268 | display and replay disagree on exactly one role: `assistant` is replayed as `model` but displayed as `user` |
| Chat.IntendedDisplayAgreesWithHistory | app.py:254-268 | with the intended display mapping, a message is displayed as the assistant's exactly when it is replayed as the model's, and as the user's exactly when it is replayed as the user's |
| Notebook.AppendSection | app.py:211 | the old notebook is a prefix of the new one, which is longer by the marker, the title, one newline and the body |
| Notebook.SectionRoundTrip | app.py:222 | what follows the old notebook reads back as exactly the appended title and body, when the title is a single line |
| Notebook.SummaryLine | app.py:208 | a summary line is the role in bold, then a prefix of the content of at most 300 characters, then `...` |
| Notebook.SummaryLines | app.py:208 | there is one summary line for each of the at most 8 most recent messages, oldest first, and line i summarises the matching recent message |
| Notebook.SummaryText | app.py:208 | the chat summary is empty without messages; otherwise it starts with the line of the oldest of the at most 8 recent messages and ends with the line of the newest; `Notebook.SummaryTextAppend` fixes the rest |
| Notebook.SummaryIgnoresOlder | app.py:208 | messages older than the 8 most recent never change the summary text |
| Notebook.SummaryTextAppend | app.py:208 | for any contents, line breaks included: the summary of one message is its line, and each further message adds a newline and its line after the summary of the at most seven messages before it |
| Notebook.SummarySplitsIntoLines | app.py:208 | without line breaks in roles and contents, the summary text splits at newlines into exactly its lines, one per recent message |
| Notebook.ExpandContext | app.py:219-220 | the expand context is empty when there are no messages; otherwise it is the prefix of the last message's content of length min(500, its length) |
| Notebook.SummaryPrompt | app.py:209 | the summary prompt is the fixed instruction followed by the chat summary; no separate property pins it, only its definition |
| Notebook.ExpandPrompt | app.py:220 | the expand prompt starts with the fixed opening and the topic, and ends with the expand context and `...`, with exactly the fixed middle text in between; no separate property pins it, only its definition |
| Session.InitFlag | app.py:84-85 | after the first step of a run the flag is set, and false unless it was already true; a flag that was set is not changed, and neither are the other keys |
| Session.Login | app.py:91-112 | for a session that is not logged in, login succeeds exactly for user `teacher` with a password whose digest equals the stored digest; any other user name gives "user not found"; only success sets the flag to true; on failure the session is just the flag-initialised one, so the flag stays false |
| Session.UnknownUserIgnoresPassword | app.py:103-112 | for an unknown user name, the outcome does not depend on the password or the digest function, and it is "user not found" |
| Session.Logout | app.py:120-124 | for a logged-in session, after logout no key is set, so the session is not logged in |
| Session.LogoutStartsFresh | app.py:84-124 | after logout the next run is behind the login gate with only the flag set; a successful login then leads to a run holding only the greeting and the default notebook |
| Session.NewConversation | app.py:180-184 | for a logged-in session, "New Conversation" leaves an empty, present message list and no notebook, and does not change the login flag |
| Session.NewConversationIdempotent | app.py:180-184 | resetting twice leaves the same session as resetting once |
| Session.NewConversationNoGreeting | app.py:180-251 | the run after "New Conversation" reseeds the default notebook but no greeting, so the conversation stays empty |
| Session.SeedNotebook | app.py:194-195 | a missing notebook becomes the default template; a present one is left as it is, along with the other keys |
| Session.SeedGreeting | app.py:246-251 | a missing message list becomes the single `model` greeting; a present one, even an empty one, is left as it is |
| Session.PageLoad | app.py:84-251 | a run with no action keeps the login status and sets the flag; a logged-out run stops at the gate with the other keys unchanged; a logged-in run ends with both keys present: a missing message list becomes the single greeting, a missing notebook becomes the default template, and keys already present are left unchanged |
| Session.PageLoadIdempotent | app.py:84-251 | loading the page a second time changes nothing |
| Session.ChatTurn | app.py:259-277 | in a logged-in session, an empty prompt only seeds the notebook and the greeting, as the run does at app.py:194-195 and 246-251. Otherwise the request carries the replay of every message shown before the prompt, plus the prompt. A reply adds `{user, prompt}` then `{assistant, reply}`. A raise keeps only the prompt and reports the service's error. The flag is unchanged and the notebook is only seeded. |
| Session.TurnAddsTwo | app.py:260-277 | a completed turn grows the log by exactly two messages, leaves every earlier message in place, and adds the prompt then the reply |
| Session.HistoryOmitsPrompt | app.py:267 | the history sent with a turn is the replay of the stored log minus its last entry, the prompt just appended, so it is one entry shorter than that log |
| Session.ConsecutiveTurns | app.py:266-277 | the next turn's history is this turn's history followed by this turn's prompt replayed as `user` and its reply replayed as `model` |
| Session.ReplyDisplayedAsUser | app.py:254-277 | as written, the reply a turn stores is displayed under the user's role although it is replayed as the model's |
| Session.ReplyDisplayedAsAssistant | app.py:254-277 | with the intended display mapping, a turn's reply is displayed as the assistant's and its prompt as the user's |
| Session.SummarizeChat | app.py:206-212 | in a logged-in session, the summary prompt of the stored messages is sent. A reply appends a "Summary from Chat" section to the seeded notebook. A missing message list sends nothing and reports the missing key. A raise reports the service's error. Both leave the seeded session unchanged. The messages and the flag never change, and the old notebook is always a prefix of the new one. |
| Session.ExpandNotes | app.py:215-223 | in a logged-in session, an empty topic changes only the notebook seeding. Otherwise a missing message list sends nothing and reports the missing key. If the list is present, the expand prompt for the topic is sent. A reply appends a section titled with the topic, and a raise reports the service's error. Whenever an error is reported, the session is left exactly as seeded. The notebook changes only through a reply, the messages and the flag never change, and the old notebook is always a prefix of the new one. |
| Session.NotebookActionsReadBack | app.py:211-222 | after either append action, the text past the old notebook reads back as the action's title and the service's reply |

## Left out

- Page configuration, CSS, sidebar widgets, columns, spinners and the download button (app.py:9-79, 172-231): these are rendering only.
- `st.rerun` and `st.stop` (app.py:108, 115, 124, 136, 184, 212, 223): each action is one atomic transition, and the run that follows it is `Session.PageLoad`.
- The nested "Generate" button inside "Expand Notes" (app.py:215-217): only the append it triggers is modelled, with the topic as a parameter. An empty topic is the `if topic` guard.
- Every call to the generation service (app.py:138, 210, 221, 236-243, 271-273): the reply is the parameter `Reply`. The model name and the system instruction are not part of the model.
- SHA-256 (app.py:89, 104): the digest is the parameter `hash`, and the stored digest is `hash("curriculum2025")`.
- Reading the API key (app.py:129-136): this is configuration input. The model assumes a key is present.
- Chat input: `Session.ChatTurn` takes the submitted text. The empty string stands for "nothing submitted", which the walrus test at app.py:259 treats the same way.
- `Session.SummarizeChat`, `Session.ExpandNotes`: a missing `messages` key is reported as `KeyMissing("messages")`, matching the attribute error Python raises. In the page it cannot happen, because the greeting seeding always runs before any button can be pressed.
- Python strings are sequences of code points and Dafny `char` is a Unicode scalar value. The 300- and 500-character truncations count the same units, except for lone surrogates, which are not modelled.

## Findings

| source | as written | input that shows it | evidently intended | confidence | as-written member | corrected member |
|---|---|---|---|---|---|---|
| app.py:254 | only role `model` is displayed as the assistant, but every reply is stored with role `assistant` (app.py:277) | any completed chat turn: its reply `{assistant, text}` is displayed in a `user` chat bubble, while the next turn replays it as `model` (app.py:268) | display every role the history treats as the model's (`assistant` or `model`) as the assistant | high; not executed | Session.ReplyDisplayedAsUser | Session.ReplyDisplayedAsAssistant |

=== FILE: chat.dfy ===
/** Chat messages as the session stores them, and the two role mappings
    applied to them: the history replayed to the generation service and the
    speaker under which each message is displayed. */
module Chat {
  import opened Text

  /** One stored `{role, content}` record of the `messages` list. */
  datatype Message = Message(role: string, content: string)

  /** One `{role, parts}` record of the history handed to the service's chat. */
  datatype HistoryEntry = HistoryEntry(role: string, parts: seq<string>)

  const UserRole: string := "user"
  const AssistantRole: string := "assistant"
  const ModelRole: string := "model"

  /** The service's two-role vocabulary: stored replies, whether tagged
      `assistant` or `model`, go back as `model`; every other role as `user`. */
  function HistoryRole(role: string): (r: string)
    ensures r == ModelRole || r == UserRole
    ensures r == ModelRole <==> role == AssistantRole || role == ModelRole
  {
    if role == AssistantRole || role == ModelRole then ModelRole else UserRole
  }

  function Entry(m: Message): HistoryEntry
  {
    HistoryEntry(HistoryRole(m.role), [m.content])
  }

  /** The history replayed for a list of stored messages. */
  function History(messages: seq<Message>): (h: seq<HistoryEntry>)
    ensures |h| == |messages|
    ensures forall i :: 0 <= i < |h| ==>
      h[i].role == HistoryRole(messages[i].role) && h[i].parts == [messages[i].content]
  {
    if |messages| == 0 then []
    else History(messages[..|messages| - 1]) + [Entry(messages[|messages| - 1])]
  }

  /** Replaying two stretches of conversation is replaying each in turn. */
  lemma HistoryAppend(a: seq<Message>, b: seq<Message>)
    ensures History(a + b) == History(a) + History(b)
  {
    var h, hab := History(a + b), History(a) + History(b);
    forall i | 0 <= i < |h|
      ensures h[i] == hab[i]
    {
      if i < |a| {
        assert (a + b)[i] == a[i];
      } else {
        assert (a + b)[i] == b[i - |a|];
      }
    }
  }

  /** The loop that builds the history for a turn: every stored message but
      the last (the prompt just appended), mapped entry by entry. */
  method BuildHistory(messages: seq<Message>) returns (history: seq<HistoryEntry>)
    ensures |messages| > 0 ==> |history| == |messages| - 1
    ensures history == History(DropLast(messages))
  {
    var prior := DropLast(messages);
    history := [];
    var i := 0;
    while i < |prior|
      invariant 0 <= i <= |prior|
      invariant history == History(prior[..i])
    {
      assert prior[..i + 1][..i] == prior[..i];
      history := history + [Entry(prior[i])];
      i := i + 1;
    }
    assert prior[..i] == prior;
  }

  /** The speaker a stored message is displayed under, as written: only the
      `model` role is shown as the assistant. */
  function DisplayRole(role: string): (r: string)
    ensures r == AssistantRole || r == UserRole
    ensures r == AssistantRole <==> role == ModelRole
  {
    if role == ModelRole then AssistantRole else UserRole
  }

  /** The speaker evidently intended: every role the history replays as
      `model` is displayed as the assistant. */
  function IntendedDisplayRole(role: string): (r: string)
    ensures r == AssistantRole || r == UserRole
  {
    if role == AssistantRole || role == ModelRole then AssistantRole else UserRole
  }

  /** As written, display and history disagree on exactly one role: a
      message stored as `assistant` is replayed as the model's but shown as
      the user's. */
  lemma DisplayDisagreesWithHistory(role: string)
    ensures DisplayRole(role) == AssistantRole <==> HistoryRole(role) == ModelRole && role != AssistantRole
    ensures HistoryRole(AssistantRole) == ModelRole && DisplayRole(AssistantRole) == UserRole
  {
  }

  /** The intended display mapping shows a message as the assistant's
      exactly when the history replays it as the model's. */
  lemma IntendedDisplayAgreesWithHistory(role: string)
    ensures IntendedDisplayRole(role) == AssistantRole <==> HistoryRole(role) == ModelRole
    ensures IntendedDisplayRole(role) == UserRole <==> HistoryRole(role) == UserRole
  {
  }
}

=== FILE: notebook.dfy ===
/** The notebook buffer and the text the two notebook actions build: the
    section an action appends, the chat summary handed to the service, and
    the context of an "expand" request. */
module Notebook {
  import opened Optional
  import opened Text
  import opened Chat

  /** The template a missing notebook is seeded with. */
  const DefaultNotebook: string := "# My Curriculum Notes\n\nStart writing or let the AI help..."

  /** What precedes the title of every appended section. */
  const SectionMarker: string := "\n\n## "

  /** Title of the section the summary action appends. */
  const SummaryTitle: string := "Summary from Chat"

  /** How many of the most recent messages the summary looks at. */
  const SummaryWindow: nat := 8

  /** How many characters of each message the summary keeps. */
  const SummaryContentLimit: nat := 300

  /** How many characters of the last message an expand request keeps. */
  const ExpandContextLimit: nat := 500

  /** The notebook after a section titled `title` with body `body` is
      appended to it. */
  function AppendSection(notebook: string, title: string, body: string): (r: string)
    ensures notebook <= r
    ensures |r| == |notebook| + |SectionMarker| + |title| + 1 + |body|
  {
    notebook + SectionMarker + title + "\n" + body
  }

  /** Reads one appended section back: the title runs from the marker to
      the first newline, the body is everything after that newline. */
  function ReadSection(section: string): Option<(string, string)>
  {
    if |section| < |SectionMarker| || section[..|SectionMarker|] != SectionMarker then None
    else
      var rest := section[|SectionMarker|..];
      if '\n' !in rest then None
      else
        var i := IndexOf(rest, '\n');
        Some((rest[..i], rest[i + 1..]))
  }

  /** An appended section can be read back from what follows the old
      notebook, as long as its title is a single line. */
  lemma SectionRoundTrip(notebook: string, title: string, body: string)
    requires '\n' !in title
    ensures ReadSection(AppendSection(notebook, title, body)[|notebook|..]) == Some((title, body))
  {
    var r := AppendSection(notebook, title, body);
    var section := r[|notebook|..];
    assert section == SectionMarker + title + "\n" + body;
    assert section[..|SectionMarker|] == SectionMarker;
    var rest := section[|SectionMarker|..];
    assert rest == title + ['\n'] + body;
    IndexOfAfterPrefix(title, '\n', body);
    assert rest[..|title|] == title;
    assert rest[|title| + 1..] == body;
  }

  /** One line of the chat summary: the role in bold, then at most the
      first 300 characters of the content, then an ellipsis. */
  function SummaryLine(m: Message): (r: string)
    ensures |r| == |m.role| + 9 + Min(SummaryContentLimit, |m.content|)
    ensures r[..|m.role| + 6] == "**" + m.role + "**: "
    ensures r[|m.role| + 6..|r| - 3] <= m.content
    ensures r[|r| - 3..] == "..."
  {
    var kept := Take(m.content, SummaryContentLimit);
    var r := "**" + m.role + "**: " + kept + "...";
    assert r[|m.role| + 6..|r| - 3] == kept;
    r
  }

  /** The summary lines: one per message of the most recent eight, oldest
      first. */
  function SummaryLines(messages: seq<Message>): (lines: seq<string>)
    ensures |lines| == Min(SummaryWindow, |messages|)
    ensures forall i :: 0 <= i < |lines| ==>
      lines[i] == SummaryLine(messages[|messages| - |lines| + i])
  {
    LinesOf(TakeLast(messages, SummaryWindow))
  }

  /** The summary line of each message of `window`, in order. */
  function LinesOf(window: seq<Message>): (lines: seq<string>)
    ensures |lines| == |window|
    ensures forall i :: 0 <= i < |window| ==> lines[i] == SummaryLine(window[i])
  {
    seq(|window|, i requires 0 <= i < |window| => SummaryLine(window[i]))
  }

  /** The chat summary: the summary lines joined by newlines. */
  function SummaryText(messages: seq<Message>): (r: string)
    ensures |messages| == 0 ==> r == []
    ensures |messages| > 0 ==>
      SummaryLine(messages[|messages| - Min(SummaryWindow, |messages|)]) <= r
    ensures |messages| > 0 ==>
      && |SummaryLine(messages[|messages| - 1])| <= |r|
      && r[|r| - |SummaryLine(messages[|messages| - 1])|..] == SummaryLine(messages[|messages| - 1])
  {
    Join("\n", SummaryLines(messages))
  }

  /** Messages older than the eight most recent never reach the summary. */
  lemma SummaryIgnoresOlder(older: seq<Message>, recent: seq<Message>)
    requires |recent| >= SummaryWindow
    ensures SummaryText(older + recent) == SummaryText(recent)
  {
    TakeLastIgnoresFront(older, recent, SummaryWindow);
  }

  /** A summary line has no line break when its message has none. */
  lemma SummaryLineSingle(m: Message)
    requires '\n' !in m.role && '\n' !in m.content
    ensures '\n' !in SummaryLine(m)
  {
    var kept := Take(m.content, SummaryContentLimit);
    assert kept == m.content[..|kept|];
    assert '\n' !in kept;
    assert SummaryLine(m) == "**" + m.role + "**: " + kept + "...";
  }

  /** Every summary line is a single line when no recent message has a line
      break. */
  lemma SummaryLinesSingle(messages: seq<Message>)
    requires forall k :: 0 <= k < |messages| ==>
      '\n' !in messages[k].role && '\n' !in messages[k].content
    ensures forall k :: 0 <= k < |SummaryLines(messages)| ==> '\n' !in SummaryLines(messages)[k]
  {
    var lines := SummaryLines(messages);
    forall k | 0 <= k < |lines|
      ensures '\n' !in lines[k]
    {
      var j := |messages| - |lines| + k;
      var m := messages[j];
      assert '\n' !in m.role && '\n' !in m.content;
      SummaryLineSingle(m);
      assert lines[k] == SummaryLine(m);
    }
  }

  /** When no role and no message has a line break, the summary splits back
      into exactly its lines, one per recent message. */
  lemma SummarySplitsIntoLines(messages: seq<Message>)
    requires |messages| > 0
    requires forall k :: 0 <= k < |messages| ==>
      '\n' !in messages[k].role && '\n' !in messages[k].content
    ensures Split(SummaryText(messages), '\n') == SummaryLines(messages)
    ensures |Split(SummaryText(messages), '\n')| == Min(SummaryWindow, |messages|)
  {
    SummaryLinesSingle(messages);
    SplitJoin(SummaryLines(messages), '\n');
  }

  /** One more message adds its line at the end of the summary lines and,
      once eight are shown, pushes the oldest one out. */
  lemma SummaryLinesAppend(messages: seq<Message>, m: Message)
    ensures SummaryLines(messages + [m])
      == SummaryLines(TakeLast(messages, SummaryWindow - 1)) + [SummaryLine(m)]
  {
    var recent := TakeLast(messages, SummaryWindow - 1);
    TakeLastAppend(messages, m, SummaryWindow);
    assert TakeLast(recent, SummaryWindow) == recent;
    LinesOfAppend(recent, m);
  }

  /** The lines of a window with one more message end with that message's line. */
  lemma LinesOfAppend(window: seq<Message>, m: Message)
    ensures LinesOf(window + [m]) == LinesOf(window) + [SummaryLine(m)]
  {
    var a, b := LinesOf(window + [m]), LinesOf(window) + [SummaryLine(m)];
    forall i | 0 <= i < |a|
      ensures a[i] == b[i]
    {
      if i < |window| {
        assert (window + [m])[i] == window[i];
      }
    }
  }

  /** A summary of one message is that message's line; each further message
      adds a newline and its line after the summary of the (at most seven)
      messages before it. Holds for any contents, line breaks included. */
  lemma {:induction false} SummaryTextAppend(messages: seq<Message>, m: Message)
    ensures |messages| == 0 ==> SummaryText(messages + [m]) == SummaryLine(m)
    ensures |messages| > 0 ==>
      SummaryText(messages + [m]) == SummaryText(TakeLast(messages, SummaryWindow - 1)) + "\n" + SummaryLine(m)
  {
    SummaryLinesAppend(messages, m);
    var lines := SummaryLines(TakeLast(messages, SummaryWindow - 1));
    if |messages| > 0 {
      JoinAppend("\n", lines, SummaryLine(m));
    } else {
      assert lines == [];
      assert lines + [SummaryLine(m)] == [SummaryLine(m)];
    }
  }

  /** The context of an expand request: the first 500 characters of the
      last message, or nothing when there are no messages. */
  function ExpandContext(messages: seq<Message>): (r: string)
    ensures |messages| == 0 ==> r == []
    ensures |messages| > 0 ==> r <= messages[|messages| - 1].content
    ensures |messages| > 0 ==> |r| == Min(ExpandContextLimit, |messages[|messages| - 1].content|)
  {
    var last := if |messages| > 0 then messages[|messages| - 1].content else "";
    Take(last, ExpandContextLimit)
  }

  /** The instruction in front of the chat summary. */
  const SummaryPromptHead: string :=
    "Summarize the following curriculum discussion concisely in markdown notes format:\n\n"

  /** The text in front of the topic of an expand request. */
  const ExpandPromptHead: string := "Create well-structured markdown notes on: '"

  /** The text between the topic and the context of an expand request. */
  const ExpandPromptMiddle: string := "'\nSuitable for curriculum revision.\nContext: "

  /** The prompt the summary action sends. */
  function SummaryPrompt(messages: seq<Message>): (r: string)
    ensures SummaryPromptHead <= r
    ensures r[|SummaryPromptHead|..] == SummaryText(messages)
  {
    SummaryPromptHead + SummaryText(messages)
  }

  /** The prompt the expand action sends for `topic`. */
  function ExpandPrompt(topic: string, messages: seq<Message>): (r: string)
    ensures ExpandPromptHead + topic <= r
    ensures |r| == |ExpandPromptHead| + |topic| + |ExpandPromptMiddle| + |ExpandContext(messages)| + 3
    ensures r[|ExpandPromptHead| + |topic|..|r| - |ExpandContext(messages)| - 3] == ExpandPromptMiddle
    ensures r[|r| - |ExpandContext(messages)| - 3..] == ExpandContext(messages) + "..."
  {
    var r := ExpandPromptHead + topic + ExpandPromptMiddle + ExpandContext(messages) + "...";
    assert r[|r| - |ExpandContext(messages)| - 3..] == ExpandContext(messages) + "...";
    assert r[|ExpandPromptHead| + |topic|..|r| - |ExpandContext(messages)| - 3] == ExpandPromptMiddle;
    r
  }
}

=== FILE: option.dfy ===
/** A value that may be absent: the model of a session-state key that may or
    may not be set. */
module Optional {

  datatype Option<T> = None | Some(value: T)
}

=== FILE: session.dfy ===
/** The per-session state of the curriculum assistant and the transitions
    the page performs on it. Each button press or chat submission is one
    atomic transition; a transition includes the seeding the page does
    earlier in the same run, and the service's reply is a parameter. */
module Session {
  import opened Optional
  import opened Text
  import opened Chat
  import opened Notebook

  /** The three session keys; a key that is not set is `None`. */
  datatype SessionState = SessionState(
    loggedIn: Option<bool>,
    messages: Option<seq<Message>>,
    notebook: Option<string>)

  /** What the generation service did with a request: answered with text,
      or raised (quota exhausted, network failure, blocked answer). */
  datatype Reply = Replied(text: string) | Raised(detail: string)

  /** A request to the generation service. */
  datatype Request =
    | ChatRequest(history: seq<HistoryEntry>, message: string)
    | TextPrompt(text: string)

  /** An exception that ends a run: a missing session key, or one raised
      by the service. */
  datatype Error = KeyMissing(key: string) | ServiceFailed(detail: string)

  /** The outcome of one transition: the session it leaves, the request it
      sent (if any) and the exception it ended with (if any). Mutations made
      before an exception persist, as they do in the page's session. */
  datatype Step = Step(after: SessionState, request: Option<Request>, raised: Option<Error>)

  datatype LoginOutcome = Succeeded | UserNotFound | IncorrectPassword

  datatype LoginStep = LoginStep(after: SessionState, outcome: LoginOutcome)

  const ValidUsername: string := "teacher"

  /** The password whose digest is the stored credential. */
  const ValidPassword: string := "curriculum2025"

  /** The greeting a conversation starts with. */
  const Greeting: Message := Message(ModelRole,
    "Hello! \U{1F44B} I'm **Curriculum Designer**.\n\nTell me about the curriculum you'd like to create:\n"
    + "\U{2022} Subject / Topic?\n\U{2022} Grade / Age level?\n\U{2022} Duration?\n\U{2022} Goals?\n"
    + "\U{2022} Special requirements?\n\nReady when you are! \U{1F680}")

  /** The session after logout: no key is set. */
  const Cleared: SessionState := SessionState(None, None, None)

  predicate LoggedIn(s: SessionState)
  {
    s.loggedIn == Some(true)
  }

  /** Every run first sets a missing login flag to false. */
  function InitFlag(s: SessionState): (r: SessionState)
    ensures r.loggedIn.Some?
    ensures LoggedIn(r) <==> LoggedIn(s)
    ensures !LoggedIn(s) ==> r.loggedIn == Some(false)
    ensures s.loggedIn.Some? ==> r == s
    ensures r.messages == s.messages && r.notebook == s.notebook
  {
    if s.loggedIn.None? then s.(loggedIn := Some(false))
    else
      assert !s.loggedIn.value ==> s.loggedIn == Some(false);
      s
  }

  /** The login form. Only the user name `teacher` is known; for it the
      digest of the password is compared with the digest of the stored
      password. The digest function is a parameter. */
  function Login(s: SessionState, username: string, password: string, hash: string -> string): (r: LoginStep)
    requires !LoggedIn(s)
    ensures r.outcome == Succeeded <==> username == ValidUsername && hash(password) == hash(ValidPassword)
    ensures r.outcome == UserNotFound <==> username != ValidUsername
    ensures r.outcome == Succeeded ==> LoggedIn(r.after)
    ensures r.outcome != Succeeded ==> r.after == InitFlag(s)
    ensures r.outcome != Succeeded ==> r.after.loggedIn == Some(false)
    ensures r.after.messages == s.messages && r.after.notebook == s.notebook
  {
    var s1 := InitFlag(s);
    if username == ValidUsername then
      if hash(password) == hash(ValidPassword) then LoginStep(s1.(loggedIn := Some(true)), Succeeded)
      else LoginStep(s1, IncorrectPassword)
    else LoginStep(s1, UserNotFound)
  }

  /** An unknown user name is refused whatever the password and the digest. */
  lemma UnknownUserIgnoresPassword(s: SessionState, username: string, p1: string, p2: string,
                                   h1: string -> string, h2: string -> string)
    requires !LoggedIn(s)
    requires username != ValidUsername
    ensures Login(s, username, p1, h1) == Login(s, username, p2, h2)
    ensures Login(s, username, p1, h1).outcome == UserNotFound
  {
  }

  /** Logout deletes every key of the session. */
  function Logout(s: SessionState): (r: SessionState)
    requires LoggedIn(s)
    ensures !LoggedIn(r)
    ensures r.loggedIn.None? && r.messages.None? && r.notebook.None?
  {
    Cleared
  }

  /** "New Conversation": an empty message list and no notebook. */
  function NewConversation(s: SessionState): (r: SessionState)
    requires LoggedIn(s)
    ensures r.messages == Some([])
    ensures r.notebook.None?
    ensures r.loggedIn == s.loggedIn
  {
    s.(messages := Some([]), notebook := None)
  }

  /** A missing notebook is seeded with the default template. */
  function SeedNotebook(s: SessionState): (r: SessionState)
    ensures r.notebook.Some?
    ensures s.notebook.Some? ==> r == s
    ensures s.notebook.None? ==> r.notebook == Some(DefaultNotebook)
    ensures r.loggedIn == s.loggedIn && r.messages == s.messages
  {
    if s.notebook.None? then s.(notebook := Some(DefaultNotebook)) else s
  }

  /** A missing message list is seeded with the greeting alone; a present
      one, even an empty one, is left as it is. */
  function SeedGreeting(s: SessionState): (r: SessionState)
    ensures r.messages.Some?
    ensures s.messages.Some? ==> r == s
    ensures s.messages.None? ==> r.messages == Some([Greeting])
    ensures r.loggedIn == s.loggedIn && r.notebook == s.notebook
  {
    if s.messages.None? then s.(messages := Some([Greeting])) else s
  }

  /** One run of the page with no action taken: the flag is initialised,
      and past the login gate the notebook and the conversation are seeded. */
  function PageLoad(s: SessionState): (r: SessionState)
    ensures r.loggedIn.Some? && (LoggedIn(r) <==> LoggedIn(s))
    ensures !LoggedIn(s) ==> r.messages == s.messages && r.notebook == s.notebook
    ensures LoggedIn(s) ==> r.messages.Some? && r.notebook.Some?
    ensures LoggedIn(s) && s.messages.None? ==> r.messages == Some([Greeting])
    ensures LoggedIn(s) && s.notebook.None? ==> r.notebook == Some(DefaultNotebook)
    ensures s.messages.Some? ==> r.messages == s.messages
    ensures s.notebook.Some? ==> r.notebook == s.notebook
  {
    var s1 := InitFlag(s);
    if !LoggedIn(s1) then s1 else SeedGreeting(SeedNotebook(s1))
  }

  /** Loading the page again changes nothing. */
  lemma PageLoadIdempotent(s: SessionState)
    ensures PageLoad(PageLoad(s)) == PageLoad(s)
  {
  }

  /** After logout the next run stays behind the login gate with nothing
      but the flag set; after a successful login the following run starts a
      fresh conversation with the greeting and the default notebook. */
  lemma LogoutStartsFresh(s: SessionState, password: string, hash: string -> string)
    requires LoggedIn(s)
    requires hash(password) == hash(ValidPassword)
    ensures PageLoad(Logout(s)) == SessionState(Some(false), None, None)
    ensures var login := Login(PageLoad(Logout(s)), ValidUsername, password, hash);
      && login.outcome == Succeeded
      && PageLoad(login.after) == SessionState(Some(true), Some([Greeting]), Some(DefaultNotebook))
  {
  }

  /** Resetting twice is resetting once. */
  lemma NewConversationIdempotent(s: SessionState)
    requires LoggedIn(s)
    ensures NewConversation(NewConversation(s)) == NewConversation(s)
  {
  }

  /** After "New Conversation" the next run reseeds the notebook but not the
      greeting: the conversation stays empty. */
  lemma NewConversationNoGreeting(s: SessionState)
    requires LoggedIn(s)
    ensures PageLoad(NewConversation(s)) == SessionState(Some(true), Some([]), Some(DefaultNotebook))
  {
  }

  /** The messages on screen when the chat input is read: the stored list,
      or the greeting seeded earlier in the same run. */
  function Conversation(s: SessionState): seq<Message>
  {
    SeedGreeting(s).messages.value
  }

  /** One chat submission. An empty prompt is no submission. Otherwise the
      prompt is stored as a `user` message, the history of every earlier
      message is sent with it, and the reply is stored as an `assistant`
      message; if the service raises, the prompt stays stored and nothing
      else is. */
  function ChatTurn(s: SessionState, prompt: string, reply: Reply): (r: Step)
    requires LoggedIn(s)
    ensures r.after.loggedIn == s.loggedIn
    ensures r.after.notebook == SeedNotebook(s).notebook
    ensures prompt == [] ==> r.after.messages == Some(Conversation(s)) && r.request.None? && r.raised.None?
    ensures prompt != [] ==> r.request == Some(ChatRequest(History(Conversation(s)), prompt))
    ensures prompt != [] && reply.Replied? ==>
      && r.raised.None?
      && r.after.messages == Some(Conversation(s) + [Message(UserRole, prompt), Message(AssistantRole, reply.text)])
    ensures prompt != [] && reply.Raised? ==>
      && r.raised == Some(ServiceFailed(reply.detail))
      && r.after.messages == Some(Conversation(s) + [Message(UserRole, prompt)])
  {
    var s1 := SeedGreeting(SeedNotebook(s));
    var shown := s1.messages.value;
    assert shown == Conversation(s);
    if prompt == [] then Step(s1, None, None)
    else
      var stored := shown + [Message(UserRole, prompt)];
      assert DropLast(stored) == shown;
      var request := ChatRequest(History(DropLast(stored)), prompt);
      match reply
      case Raised(detail) =>
        Step(s1.(messages := Some(stored)), Some(request), Some(ServiceFailed(detail)))
      case Replied(text) =>
        assert stored + [Message(AssistantRole, text)]
          == shown + [Message(UserRole, prompt), Message(AssistantRole, text)];
        Step(s1.(messages := Some(stored + [Message(AssistantRole, text)])), Some(request), None)
  }

  /** A completed turn adds exactly two messages, the prompt then the
      reply, and leaves every earlier message where it was. */
  lemma TurnAddsTwo(s: SessionState, prompt: string, text: string)
    requires LoggedIn(s)
    requires prompt != []
    ensures var before := Conversation(s);
      var after := ChatTurn(s, prompt, Replied(text)).after.messages.value;
      && |after| == |before| + 2
      && after[..|before|] == before
      && after[|before|] == Message(UserRole, prompt)
      && after[|before| + 1] == Message(AssistantRole, text)
  {
    var before := Conversation(s);
    var after := ChatTurn(s, prompt, Replied(text)).after.messages.value;
    assert after == before + [Message(UserRole, prompt), Message(AssistantRole, text)];
    assert after[..|before|] == before;
  }

  /** The history sent with a turn never holds its own prompt: it is one
      entry shorter than the stored messages, and replays the prompt's
      predecessors only. */
  lemma HistoryOmitsPrompt(s: SessionState, prompt: string, reply: Reply)
    requires LoggedIn(s)
    requires prompt != []
    ensures var r := ChatTurn(s, prompt, reply);
      var stored := Conversation(s) + [Message(UserRole, prompt)];
      && r.request.Some?
      && r.request.value.history == History(DropLast(stored))
      && |r.request.value.history| == |stored| - 1
  {
    var stored := Conversation(s) + [Message(UserRole, prompt)];
    assert DropLast(stored) == Conversation(s);
  }

  /** The history of the next turn is the history of this one followed by
      this turn's prompt, replayed as `user`, and its reply, replayed as
      `model`. */
  lemma {:induction false} ConsecutiveTurns(s: SessionState, p1: string, text: string, p2: string, reply: Reply)
    requires LoggedIn(s)
    requires p1 != [] && p2 != []
    ensures var first := ChatTurn(s, p1, Replied(text));
      var second := ChatTurn(first.after, p2, reply);
      second.request.value.history
        == first.request.value.history + [HistoryEntry(UserRole, [p1]), HistoryEntry(ModelRole, [text])]
  {
    var first := ChatTurn(s, p1, Replied(text));
    var turn := [Message(UserRole, p1), Message(AssistantRole, text)];
    assert Conversation(first.after) == Conversation(s) + turn;
    HistoryAppend(Conversation(s), turn);
    assert History(turn) == [HistoryEntry(UserRole, [p1]), HistoryEntry(ModelRole, [text])];
  }

  /** As written, a completed turn's reply is displayed under the user's
      role although the next turn replays it as the model's. */
  lemma ReplyDisplayedAsUser(s: SessionState, prompt: string, text: string)
    requires LoggedIn(s)
    requires prompt != []
    ensures var after := ChatTurn(s, prompt, Replied(text)).after.messages.value;
      && DisplayRole(after[|after| - 1].role) == UserRole
      && HistoryRole(after[|after| - 1].role) == ModelRole
  {
    DisplayDisagreesWithHistory(AssistantRole);
  }

  /** With the intended display mapping, a completed turn's reply is
      displayed as the assistant's and its prompt as the user's. */
  lemma ReplyDisplayedAsAssistant(s: SessionState, prompt: string, text: string)
    requires LoggedIn(s)
    requires prompt != []
    ensures var after := ChatTurn(s, prompt, Replied(text)).after.messages.value;
      && IntendedDisplayRole(after[|after| - 1].role) == AssistantRole
      && IntendedDisplayRole(after[|after| - 2].role) == UserRole
  {
    IntendedDisplayAgreesWithHistory(AssistantRole);
    IntendedDisplayAgreesWithHistory(UserRole);
  }

  /** "Summarize Chat": the summary prompt of the stored messages is sent and
      the reply is appended to the notebook as the "Summary from Chat"
      section. */
  function SummarizeChat(s: SessionState, reply: Reply): (r: Step)
    requires LoggedIn(s)
    ensures r.after.loggedIn == s.loggedIn && r.after.messages == s.messages
    ensures r.after.notebook.Some? && SeedNotebook(s).notebook.value <= r.after.notebook.value
    ensures s.messages.None? <==> r.raised == Some(KeyMissing("messages"))
    ensures s.messages.None? ==> r.request.None?
    ensures s.messages.Some? ==> r.request == Some(TextPrompt(SummaryPrompt(s.messages.value)))
    ensures s.messages.Some? && reply.Raised? ==> r.raised == Some(ServiceFailed(reply.detail))
    ensures r.raised.None? <==> s.messages.Some? && reply.Replied?
    ensures r.raised.None? ==>
      r.after.notebook == Some(AppendSection(SeedNotebook(s).notebook.value, SummaryTitle, reply.text))
    ensures r.raised.Some? ==> r.after == SeedNotebook(s)
  {
    var s1 := SeedNotebook(s);
    if s1.messages.None? then Step(s1, None, Some(KeyMissing("messages")))
    else
      var request := Some(TextPrompt(SummaryPrompt(s1.messages.value)));
      match reply
      case Raised(detail) => Step(s1, request, Some(ServiceFailed(detail)))
      case Replied(text) =>
        Step(s1.(notebook := Some(AppendSection(s1.notebook.value, SummaryTitle, text))), request, None)
  }

  /** "Expand Notes" with a topic: nothing happens for an empty topic;
      otherwise the expand prompt for the topic and the last message is
      sent and the reply is appended as a section titled with the topic. */
  function ExpandNotes(s: SessionState, topic: string, reply: Reply): (r: Step)
    requires LoggedIn(s)
    ensures r.after.loggedIn == s.loggedIn && r.after.messages == s.messages
    ensures r.after.notebook.Some? && SeedNotebook(s).notebook.value <= r.after.notebook.value
    ensures topic == [] ==> r == Step(SeedNotebook(s), None, None)
    ensures topic != [] && s.messages.None? ==> r.raised == Some(KeyMissing("messages")) && r.request.None?
    ensures topic != [] && s.messages.Some? ==>
      r.request == Some(TextPrompt(ExpandPrompt(topic, s.messages.value)))
    ensures topic != [] && s.messages.Some? && reply.Raised? ==> r.raised == Some(ServiceFailed(reply.detail))
    ensures r.raised.Some? ==> r.after == SeedNotebook(s)
    ensures r.after.notebook != SeedNotebook(s).notebook ==> topic != [] && reply.Replied?
    ensures topic != [] && s.messages.Some? && reply.Replied? ==>
      && r.raised.None?
      && r.after.notebook == Some(AppendSection(SeedNotebook(s).notebook.value, topic, reply.text))
  {
    var s1 := SeedNotebook(s);
    if topic == [] then Step(s1, None, None)
    else if s1.messages.None? then Step(s1, None, Some(KeyMissing("messages")))
    else
      var request := Some(TextPrompt(ExpandPrompt(topic, s1.messages.value)));
      match reply
      case Raised(detail) => Step(s1, request, Some(ServiceFailed(detail)))
      case Replied(text) =>
        Step(s1.(notebook := Some(AppendSection(s1.notebook.value, topic, text))), request, None)
  }

  /** A notebook action that completes can be read back: the text after the
      old notebook is one section with the action's title and the reply. */
  lemma NotebookActionsReadBack(s: SessionState, topic: string, text: string)
    requires LoggedIn(s)
    requires s.messages.Some?
    requires topic != [] && '\n' !in topic
    ensures var before := SeedNotebook(s).notebook.value;
      && ReadSection(SummarizeChat(s, Replied(text)).after.notebook.value[|before|..]) == Some((SummaryTitle, text))
      && ReadSection(ExpandNotes(s, topic, Replied(text)).after.notebook.value[|before|..]) == Some((topic, text))
  {
    var before := SeedNotebook(s).notebook.value;
    SectionRoundTrip(before, SummaryTitle, text);
    SectionRoundTrip(before, topic, text);
  }
}

=== FILE: text.dfy ===
/** Sequence and string helpers with the meaning of the Python slicing,
    joining and splitting the session code relies on. */
module Text {

  function Min(a: int, b: int): int
  {
    if a <= b then a else b
  }

  /** Python's `s[:n]` for `n >= 0`: the first `n` elements, or all of `s`
      when it is shorter. */
  function Take<T>(s: seq<T>, n: nat): (r: seq<T>)
    ensures r <= s
    ensures |r| == Min(n, |s|)
  {
    if |s| <= n then s else s[..n]
  }

  /** Python's `s[-n:]` for `n > 0`: the last `n` elements, or all of `s`
      when it is shorter. */
  function TakeLast<T>(s: seq<T>, n: nat): (r: seq<T>)
    requires n > 0
    ensures |r| == Min(n, |s|)
    ensures r == s[|s| - |r|..]
  {
    if |s| <= n then s else s[|s| - n..]
  }

  /** The last `n` elements of `s + [x]` are the last `n - 1` of `s`, then `x`. */
  lemma TakeLastAppend<T>(s: seq<T>, x: T, n: nat)
    requires n > 1
    ensures TakeLast(s + [x], n) == TakeLast(s, n - 1) + [x]
  {
    if |s| + 1 > n {
      assert (s + [x])[|s| + 1 - n..] == s[|s| - (n - 1)..] + [x];
    }
  }

  /** Elements in front of the last `n` do not change the last `n`. */
  lemma TakeLastIgnoresFront<T>(front: seq<T>, s: seq<T>, n: nat)
    requires n > 0 && |s| >= n
    ensures TakeLast(front + s, n) == TakeLast(s, n)
  {
    assert (front + s)[|front| + |s| - n..] == s[|s| - n..];
  }

  /** Python's `s[:-1]`: everything but the last element; empty for an
      empty `s`. */
  function DropLast<T>(s: seq<T>): (r: seq<T>)
    ensures r <= s
    ensures |s| > 0 ==> |r| == |s| - 1
    ensures |s| == 0 ==> r == []
  {
    if |s| == 0 then [] else s[..|s| - 1]
  }

  /** Python's `sep.join(parts)`. */
  function Join<T>(sep: seq<T>, parts: seq<seq<T>>): (r: seq<T>)
    ensures |parts| == 0 ==> r == []
    ensures |parts| == 1 ==> r == parts[0]
    ensures |parts| > 0 ==> parts[0] <= r
    ensures |parts| > 0 ==>
      && |parts[|parts| - 1]| <= |r|
      && r[|r| - |parts[|parts| - 1]|..] == parts[|parts| - 1]
    decreases |parts|
  {
    if |parts| == 0 then []
    else if |parts| == 1 then parts[0]
    else
      var front, rest := parts[0] + sep, Join(sep, parts[1..]);
      var last := parts[|parts| - 1];
      assert (front + rest)[|front + rest| - |last|..] == rest[|rest| - |last|..];
      front + rest
  }

  /** Joining one more part adds the separator and that part at the end. */
  lemma {:induction false} JoinAppend<T>(sep: seq<T>, parts: seq<seq<T>>, last: seq<T>)
    requires |parts| > 0
    ensures Join(sep, parts + [last]) == Join(sep, parts) + sep + last
    decreases |parts|
  {
    if |parts| == 1 {
      assert parts + [last] == [parts[0], last];
    } else {
      var tail := parts[1..];
      assert (parts + [last])[1..] == tail + [last];
      JoinAppend(sep, tail, last);
      assert Join(sep, parts + [last]) == parts[0] + sep + Join(sep, tail + [last]);
      assert Join(sep, parts) == parts[0] + sep + Join(sep, tail);
    }
  }

  /** Position of the first `c` in `s`. */
  function IndexOf(s: string, c: char): (i: nat)
    requires c in s
    ensures i < |s| && s[i] == c
    ensures c !in s[..i]
  {
    if s[0] == c then 0
    else
      var j := IndexOf(s[1..], c);
      assert s[..j + 1] == [s[0]] + s[1..][..j];
      j + 1
  }

  /** Python's `s.split(c)` for a one-character separator: the pieces
      between consecutive occurrences of `c`. */
  function Split(s: string, c: char): (r: seq<string>)
    ensures |r| > 0
    decreases |s|
  {
    if c !in s then [s]
    else
      var i := IndexOf(s, c);
      [s[..i]] + Split(s[i + 1..], c)
  }

  /** The first `c` of `a + [c] + b` is the one after `a` when `a` has none. */
  lemma IndexOfAfterPrefix(a: string, c: char, b: string)
    requires c !in a
    ensures c in a + [c] + b
    ensures IndexOf(a + [c] + b, c) == |a|
  {
    var s := a + [c] + b;
    assert s[|a|] == c;
    var i := IndexOf(s, c);
    assert s[..|a|] == a;
  }

  /** Splitting `a + [c] + b` at `c` cuts off `a` first when `a` has no `c`. */
  lemma SplitAfterPrefix(a: string, c: char, b: string)
    requires c !in a
    ensures Split(a + [c] + b, c) == [a] + Split(b, c)
  {
    var s := a + [c] + b;
    IndexOfAfterPrefix(a, c, b);
    assert s[..|a|] == a;
    assert s[|a| + 1..] == b;
  }

  /** Splitting at `c` undoes joining with `c` when no part contains `c`. */
  lemma {:induction false} SplitJoin(parts: seq<string>, c: char)
    requires |parts| > 0
    requires forall k :: 0 <= k < |parts| ==> c !in parts[k]
    ensures Split(Join([c], parts), c) == parts
    decreases |parts|
  {
    if |parts| > 1 {
      var tail := parts[1..];
      assert forall k :: 0 <= k < |tail| ==> c !in tail[k] by {
        forall k | 0 <= k < |tail|
          ensures c !in tail[k]
        {
          assert tail[k] == parts[k + 1];
        }
      }
      SplitJoin(tail, c);
      assert Join([c], parts) == parts[0] + [c] + Join([c], tail);
      SplitAfterPrefix(parts[0], c, Join([c], tail));
      assert parts == [parts[0]] + tail;
    }
  }
}
